=== FILE: README.md ===
# ImageAPI core in Dafny

A model of the rule core of ImageAPI, a Django REST Framework service where
users upload images and get them back according to their account tier.

- **Account tiers.** A tier lists the thumbnail sizes it grants and says
  whether the user keeps the original size and whether they may fetch
  expiring links.
- **Thumbnails.** Each thumbnail URL is derived from the stored image URL.
  A resize segment `w_{size},h_{size}/` is spliced in right after the first
  `upload/` marker.
- **Expiring links.** The link endpoint answers with the image URL until
  the link's lifetime has elapsed. After that it answers with a fixed
  expiry message.

The model is purely functional:

- Database tables are sequences, and the row with primary key `pk` sits at
  index `pk - 1`.
- The media provider is a function from the file and the upload parameters
  to the URL it returns.
- The current time, the request's absolute root and whether saving a link
  succeeds are all parameters.
- The exceptions the modelled code raises on its own inputs are explicit
  `ApiError` values rather than preconditions:
  - `TierMissing` for a user with no tier;
  - `MarkerMissing` for a URL with no `upload/` when thumbnails are due;
  - `NotFound` for an unknown or foreign key.

  Non-numeric keys in a URL are outside the model; see "Left out".

Modules:

| file | module | contents |
|---|---|---|
| `outcomes.dfy` | `Outcomes` | `Option` and `Result` |
| `text.dfy` | `Text` | Python's `str(n)` and its inverse, first-occurrence search, `split(sep, 1)`, `s[:-1]` |
| `models.dfy` | `Models` | the schema, string forms, link paths, the filtered query |
| `representation.dfy` | `Representation` | thumbnail URLs and the two serializers' `to_representation` |
| `uploads.dfy` | `Uploads` | validation and `create` of both serializers, the store invariant |
| `views.dfy` | `Views` | the link endpoint's `retrieve`, the serializer choice, the image queryset, `retrieve` and `list` |
| `scenarios.dfy` | `Scenarios` | the concrete situations of the repository's tests |

Behaviour of the code that is easy to misread:

- **Expiry boundary.** The code declares a link expired only when
  `created + lifetime < now`. At the exact deadline the link is still
  served.
- **Expiring link field.** The field appears only when exactly one stored
  link has the image's URL. `objects.get` raises on zero matches and on
  several, and the bare `except` swallows both. Its value is the absolute
  root minus its last character, followed by the link's path.
- **`fetch_url` on create.** `create` does not consult `fetch_url`. A link
  is created whenever the link-capable serializer is in use, a lifetime
  was supplied and saving the link succeeds; a failed save is swallowed. That serializer is chosen only for tiers with `fetch_url`.
- **Thumbnail sizes.** The size column is a non-negative integer, so a
  size of 0 is representable.

## Model

| member | source | states |
|---|---|---|
| Text.NatToString | api/serializers.py:62-64 | the rendering of a size in an f-string is a non-empty run of digits with no leading zero |
| Text.ParseNatToString | api/serializers.py:62-64 | parsing the rendering of n gives back n |
| Text.NatToStringInjective | api/serializers.py:62 | distinct sizes render differently |
| Text.FindFrom | api/serializers.py:63 | finds the leftmost occurrence of the pattern at or after a position, or reports that none exists |
| Text.SplitOnce | api/serializers.py:63-65 | `split(sep, 1)` gives one part (the whole string) exactly when sep is absent; otherwise two parts around the first occurrence, which rejoin to the input, and no occurrence of sep in the first part |
| Text.SplitOnceAt | api/serializers.py:63-65 | splitting a + sep + b returns a and b when sep does not start inside a |
| Text.FramedRoundTrip | api/models.py:18-20 | a number framed by a prefix and suffix can be read back |
| Text.FramedInjective | api/models.py:91-93 | equal framings carry equal numbers |
| Text.DropLast | api/serializers.py:166 | `s[:-1]` is s with its last character removed, and empty stays empty |
| Models.ThumbnailStr | api/models.py:18-20 | the string form of a thumbnail is "Thumbnail size ", the decimal rendering of its size, then "px", and reads back as exactly that size |
| Models.LinkPath | api/models.py:91-93 | the link's path starts with `/api/expiringlink/` and resolves back to the same primary key, so distinct links have distinct paths |
| Models.LinkPathForm | api/models.py:91-93 | the link's path is `/api/expiringlink/`, the decimal rendering of the key, then `/` |
| Models.FilteredRowAt | api/views.py:26-28 | a key belongs to a filtered query exactly when the row with that key exists and passes the filter |
| Models.PksWhere | api/views.py:26-28 | a filtered query yields exactly the keys of the rows that satisfy the filter, in ascending order |
| Representation.ThumbnailUrl | api/serializers.py:63-66 | the rendition URL is the text before the first `upload/`, then `upload/w_{size},h_{size}/`, then the rest; there is none exactly when the marker is absent |
| Representation.ThumbnailUrlRoundTrip | api/serializers.py:63-66 | stripping the resize segment from a rendition URL restores the original URL |
| Representation.ThumbnailKeyForm | api/serializers.py:62 | the field name is "Thumbnail ", the decimal rendering of the size, then "px" |
| Representation.ThumbnailKey | api/serializers.py:62 | the field name encodes the size and never clashes with `name`, `url` or `Expiring link` |
| Representation.ThumbnailKeysCount | api/serializers.py:59-68 | one thumbnail field per distinct size |
| Representation.AddThumbnails | api/serializers.py:59-68 | the loop adds exactly one field per granted size, each holding its rendition URL, and leaves other fields alone; it raises exactly when a size is due and the URL has no marker |
| Representation.BaseFields | api/serializers.py:36-43 | the model serializer outputs exactly `name` and `url` |
| Representation.PlainRepresentation | api/serializers.py:45-69 | no tier raises; the Basic tier gets exactly name and url; every other tier also gets one rendition field per granted size; it raises exactly when thumbnails are due and the URL has no marker |
| Representation.PlainHasNoLinkKey | api/serializers.py:56-68 | the serializer for tiers without link permission never produces the `Expiring link` field |
| Representation.LinksTo | api/serializers.py:164 | the link lookup by URL has a single result exactly when one stored link has that URL, and that result is the link |
| Representation.SingleMatch | api/serializers.py:164 | an ascending list of the matching keys is the single key when only one matches |
| Representation.LinkedRepresentation | api/serializers.py:139-173 | the plain fields plus an `Expiring link` field present exactly when one link has the image's URL; its value is the root without its last character, followed by that link's path; errors are those of the plain serializer |
| Representation.Represent | api/views.py:30-34 | both serializers fail under the same condition and with the same error, and only the link-capable one adds the link field |
| Uploads.Validate | api/serializers.py:119-128 | accepts exactly a non-empty, unused name of at most 256 characters without NUL characters and a non-empty decodable jpg or png (the same fields as api/serializers.py:30-43); the link serializer also checks an optional lifetime in 300..30000, which the plain serializer ignores |
| Uploads.UploadParamsFor | api/serializers.py:85-101 | uploads go to the owner's folder under the image name with overwrite; a 200x200 scale transform is applied exactly when the tier does not keep original sizes |
| Uploads.UploadDependsOnlyOnOriginalSize | api/serializers.py:85-101 | two tiers lead to the same upload call for the same owner and name exactly when they agree on keeping original sizes |
| Uploads.SerializersStoreSameImage | api/serializers.py:187-210 | a request that passes both serializers' validation makes both store the same image record |
| Uploads.Create | api/serializers.py:175-220 | covers both serializers' create (the plain one is api/serializers.py:71-106); create returns None exactly when validation fails; no tier raises; otherwise the image with the provider's URL is appended, and a link to that URL with the given lifetime is appended exactly when the link serializer received a lifetime and saving succeeded |
| Uploads.CreatePreservesValidStore | api/serializers.py:207-219 | create keeps image names unique and every link pointing at an existing image with its URL and an accepted lifetime |
| Uploads.DuplicateNameRefused | api/models.py:63 | a name already in use, whoever owns it, makes create store nothing |
| Uploads.LinkOnlyWithAcceptedLifetime | api/serializers.py:124-128 | a link is only stored by the link serializer, given a lifetime within the bounds |
| Views.ExpiryBoundary | api/views.py:45-48 | a link is still valid at its deadline and has expired one second later |
| Views.ExpiryIsMonotonic | api/views.py:45-48 | an expired link stays expired |
| Views.RetrieveLink | api/views.py:40-51 | unknown keys are not found; otherwise status 200 with the single field `url`, holding the destination before the deadline and the expiry message after it |
| Views.ExpiredAnswerIsFinal | api/views.py:45-49 | once the endpoint reports a link expired, it does so at every later time |
| Views.ChooseSerializer | api/views.py:30-34 | the link-capable serializer exactly when the tier may fetch links; no tier raises |
| Views.VisibleImages | api/views.py:26-28 | the queryset holds exactly the requester's images |
| Views.RetrieveImage | api/views.py:19-34 | another user's image or an unknown key is not found; an own image gives its name and url, plus the link field only for tiers that may fetch links; with a tier, the only error an own image can raise is the missing `upload/` marker |
| Views.CollectAll | api/views.py:19-28 | serializing a list succeeds exactly when every element does, and element by element |
| Views.ListImages | api/views.py:19-34 | no tier raises; for a tiered requester the list succeeds exactly when every own image can be retrieved, and then holds, in key order, the detail representation of each of them; when it fails, the error re-raised is the missing `upload/` marker |
| Views.OwnedImages | api/views.py:26-28 | the requester's image rows, one per visible key, in key order |
| Views.ListedAreRetrieved | api/views.py:19-34 | serializing the requester's images in turn agrees, element by element, with the detail view of each; it succeeds exactly when every detail view does |
| Views.EachIffEvery | api/views.py:26-28 | a list of exactly the matching keys has every element satisfying a property exactly when every matching key does |
| Views.RetrieveOwnedImage | api/views.py:26-34 | for an own image, the detail view is what the chosen serializer builds |
| Views.DetailShowsLink | api/serializers.py:163-172 | for a tier that may fetch links, the detail view of an own image shows the `Expiring link` field exactly when one stored link has the image's URL |
| Views.LinkAnswers | api/views.py:40-51 | a stored link to a URL answers with that URL until it expires and with the expiry message afterwards |
| Views.HostPathResolves | api/serializers.py:165-168 | a host followed by a stored link's path reads back, past the host, as that link's key, whose answers are the link's URL and then the expiry message |
| Views.AdvertisedLinkResolves | api/serializers.py:163-172 | the advertised link is the host followed by a path the link endpoint resolves to the image's URL until expiry, and to the expiry message afterwards |
| Views.AdvertisedIsHostPath | api/serializers.py:164-169 | served from the root `host + "/"`, the advertised link is the host followed by the unique matching link's path |
| Scenarios.BasicTierScenario | api/tests/test_views.py:93-101 | a Basic tier with a thumbnail configured shows only name and url |
| Scenarios.PremiumTierScenario | api/tests/test_views.py:103-118 | a Premium tier granting 200 and 400 shows both rendition URLs of the test URL |
| Scenarios.EnterpriseTierScenario | api/tests/test_views.py:120-135 | a tier with link permission but no link shows the same four fields |
| Scenarios.FreshLinkScenario | api/tests/test_views.py:15-21 | a link fetched right after creation answers 200 with its URL |
| Scenarios.FirstLinkPath | api/tests/test_model.py:34-37 | the first link's path is `/api/expiringlink/1/` |

## Left out

- **Media provider.** The upload to the media provider is a function
  parameter (`Provider`). Its network call, the response parsing and any
  failure are not modelled.
- **Users and the ORM.** `User.objects.get` re-reads the requesting user;
  the requester is passed in directly. Rows are never deleted, so cascade
  deletes and key gaps are not modelled.
- **Authentication.** The 403 for unauthenticated requests is not
  modelled. Every request has an authenticated requester.
- **URL building.** `reverse` and `build_absolute_uri` are given as the
  fixed link path and an absolute-root parameter.
- **Non-numeric keys.** Keys in detail URLs are taken to be integers. The
  router's default pattern also admits a non-numeric key, for which the
  lookup at api/views.py:43 raises a conversion error (a server error, not
  a 404). That path is not modelled: `Views.RetrieveLink` takes an `int`
  key. `Models.LinkPkOfPath` only reads back the paths `Models.LinkPath`
  builds.
- **Time.** Time is integer seconds on one clock. Time zones and
  sub-second precision are not modelled.
- **Upload validation.**
  - `Uploads.Validate` takes the file's extension as a field and a flag
    for whether the content decodes as an image. Extracting the extension
    from the file name, its case handling and the image decoder are not
    modelled.
  - Trimming whitespace from the name field is not modelled: names are
    taken as sent.
- **Create endpoint response.** The rendering of the create endpoint's
  response and its status codes are not modelled. `Uploads.Create`
  returns the new rows.
- **Field order.** Representations are maps, so the order of JSON fields
  is not modelled.
- **List order.** `Views.ListImages` orders by primary key. The source's
  queryset has no explicit ordering.
- **Not modelled at all.** The `ExpiringLinkSerializer` URL validation,
  admin registration, the superuser script and the URL router are not
  part of this model.
- **String forms.** `Models.ImageStr`, `Models.LinkStr` and
  `Models.TierStr` are the image's name, the link's URL and the tier's
  name. There is nothing to state about them beyond those definitions, so
  they have no rows above.

=== FILE: models.dfy ===
/**
 The relational schema of the image API as immutable values: thumbnail
 sizes, account tiers, users, images and expiring links, with the field
 constraints the schema declares and the models' string forms.

 Every table is a sequence whose row with primary key `pk` sits at index
 `pk - 1`, the numbering an auto-increment key gives a table without
 deletions.
 */
module Models {
  import opened Outcomes
  import opened Text

  const MaxTierNameLength := 32
  const MaxImageNameLength := 256

  /** A square thumbnail size in pixels; `size` is a non-negative integer column. */
  datatype Thumbnail = Thumbnail(id: nat, size: nat)

  /**
   A subscription tier. `thumbnails` lists the related thumbnail rows in the
   order the many-to-many relation yields them; distinct rows may carry the
   same size.
   */
  datatype AccountTier = AccountTier(
    name: string,
    thumbnails: seq<Thumbnail>,
    originalSize: bool,
    fetchUrl: bool)

  /** A user; the tier is a nullable foreign key. */
  datatype User = User(id: nat, username: string, accountTier: Option<AccountTier>)

  /** An uploaded image: its owner's user id, its name and the provider's URL. */
  datatype Image = Image(owner: nat, name: string, url: string)

  /**
   A time-limited link: destination URL, primary key of its image, creation
   time in seconds and lifetime in seconds.
   */
  datatype ExpiringLink = ExpiringLink(url: string, image: nat, createdTime: int, expirationTime: int)

  /**
   The exceptions the core raises instead of answering: a user without a
   tier (attribute access on `None`), a URL without the upload marker
   (indexing past the end of a one-element split), and a missing row.
   */
  datatype ApiError = TierMissing | MarkerMissing | NotFound

  /** The persisted tables the core reads and writes. */
  datatype Store = Store(images: seq<Image>, links: seq<ExpiringLink>)

  /** A tier's column constraints: a bounded name, and each related thumbnail row at most once. */
  predicate ValidTier(tier: AccountTier) {
    && |tier.name| <= MaxTierNameLength
    && forall i, j :: 0 <= i < j < |tier.thumbnails| ==> tier.thumbnails[i].id != tier.thumbnails[j].id
  }

  /** The sizes carried by a list of thumbnail rows, each once. */
  function SizesOf(thumbnails: seq<Thumbnail>): set<nat> {
    set t | t in thumbnails :: t.size
  }

  const ThumbnailStrPrefix := "Thumbnail size "
  const ThumbnailStrSuffix := "px"

  /** The string form of a thumbnail row. */
  function ThumbnailStr(t: Thumbnail): (s: string)
    ensures |ThumbnailStrPrefix| + |ThumbnailStrSuffix| < |s|
    ensures s[..|ThumbnailStrPrefix|] == ThumbnailStrPrefix && s[|s| - |ThumbnailStrSuffix|..] == ThumbnailStrSuffix
    ensures s[|ThumbnailStrPrefix|..|s| - |ThumbnailStrSuffix|] == NatToString(t.size)
    ensures Unframe(s, ThumbnailStrPrefix, ThumbnailStrSuffix) == Some(t.size)
  {
    FramedRoundTrip(ThumbnailStrPrefix, t.size, ThumbnailStrSuffix);
    Framed(ThumbnailStrPrefix, t.size, ThumbnailStrSuffix)
  }

  /** The string form of a tier is its name, so it is as bounded as the name column. */
  function TierStr(tier: AccountTier): (s: string)
    ensures s == tier.name
    ensures ValidTier(tier) ==> |s| <= MaxTierNameLength
  {
    tier.name
  }

  /** The string form of an image is its name. */
  function ImageStr(image: Image): string {
    image.name
  }

  /** The string form of an expiring link is its destination URL. */
  function LinkStr(link: ExpiringLink): string {
    link.url
  }

  const LinkPathPrefix := "/api/expiringlink/"
  const LinkPathSuffix := "/"

  /** The key a link detail path carries, read back from its digits (the inverse of `LinkPath`). */
  function LinkPkOfPath(path: string): Option<nat> {
    Unframe(path, LinkPathPrefix, LinkPathSuffix)
  }

  /**
   The path the router gives the detail view of the expiring link with key
   `pk`. Resolving it leads back to `pk`, so distinct links get distinct paths.
   */
  function LinkPath(pk: nat): (path: string)
    ensures |LinkPathPrefix| < |path| && path[..|LinkPathPrefix|] == LinkPathPrefix
    ensures LinkPkOfPath(path) == Some(pk)
  {
    FramedRoundTrip(LinkPathPrefix, pk, LinkPathSuffix);
    Framed(LinkPathPrefix, pk, LinkPathSuffix)
  }

  /** The link path is the prefix, the decimal rendering of the key, and the closing slash. */
  lemma LinkPathForm(pk: nat)
    ensures var path := LinkPath(pk);
      && |LinkPathPrefix| + |LinkPathSuffix| < |path|
      && path[..|LinkPathPrefix|] == LinkPathPrefix
      && path[|path| - |LinkPathSuffix|..] == LinkPathSuffix
      && path[|LinkPathPrefix|..|path| - |LinkPathSuffix|] == NatToString(pk)
  {
  }

  /** The row with primary key `pk`, if there is one. */
  function RowAt<T>(rows: seq<T>, pk: int): (r: Option<T>)
    ensures r.Some? <==> 1 <= pk <= |rows|
    ensures r.Some? ==> r.value == rows[pk - 1]
  {
    if 1 <= pk <= |rows| then Some(rows[pk - 1]) else None
  }

  /** The primary keys of the rows satisfying `keep`, in ascending order (a filtered query). */
  function PksWhere<T>(rows: seq<T>, keep: T -> bool): (pks: seq<nat>)
    ensures forall pk :: pk in pks <==> 1 <= pk <= |rows| && keep(rows[pk - 1])
    ensures forall i, j :: 0 <= i < j < |pks| ==> pks[i] < pks[j]
    decreases |rows|
  {
    if |rows| == 0 then []
    else
      var earlier := PksWhere(rows[..|rows| - 1], keep);
      forall i | 0 <= i < |earlier|
        ensures earlier[i] < |rows|
      {
        assert earlier[i] in earlier;
      }
      if keep(rows[|rows| - 1]) then earlier + [|rows|] else earlier
  }

  /**
   Looking a key up in a filtered query: the key is among the query's keys
   exactly when the row with that key exists and passes the filter.
   */
  lemma FilteredRowAt<T>(rows: seq<T>, keep: T -> bool, pk: int)
    ensures pk in PksWhere(rows, keep) <==> RowAt(rows, pk).Some? && keep(RowAt(rows, pk).value)
  {
  }

  /** Image names are unique across the whole table, whoever owns them. */
  ghost predicate NamesUnique(images: seq<Image>) {
    forall i, j :: 0 <= i < j < |images| ==> images[i].name != images[j].name
  }

  /** Some stored image already has this name. */
  predicate NameTaken(images: seq<Image>, name: string) {
    exists i :: 0 <= i < |images| && images[i].name == name
  }
}

=== FILE: outcomes.dfy ===
/** Optional values and results shared by the rest of the model. */
module Outcomes {

  /** A value that may be absent (Python's `None`). */
  datatype Option<+T> = None | Some(value: T)

  /** The outcome of an operation that can raise: a value, or the error it raised. */
  datatype Result<+T, +E> = Ok(value: T) | Err(error: E)
}

=== FILE: representation.dfy ===
/**
 The outward view of an image, as the two image serializers build it:
 the `name` and `url` fields, one derived thumbnail URL per size the
 requester's tier grants (unless the tier is the one named "Basic"), and,
 for the link-capable serializer, the absolute address of the image's
 expiring link.
 */
module Representation {
  import opened Outcomes
  import opened Text
  import opened Models

  /** The two serializers the image endpoint chooses between. */
  datatype SerializerKind = PlainSerializer | LinkSerializer

  /** The media provider's path marker after which transforms are spliced in. */
  const UploadMarker := "upload/"

  /** The tier name that never sees thumbnails, whatever sizes it is given. */
  const BasicTierName := "Basic"

  const NameKey := "name"
  const UrlKey := "url"
  const LinkKey := "Expiring link"
  const ThumbnailKeyPrefix := "Thumbnail "
  const ThumbnailKeySuffix := "px"

  /** A JSON object with string values; key order is not modelled. */
  type Fields = map<string, string>

  /** The provider's on-the-fly resize segment for a square of `size` pixels. */
  function TransformSegment(size: nat): string {
    "w_" + NatToString(size) + ",h_" + NatToString(size) + "/"
  }

  /**
   The URL of the `size`-pixel rendition of `url`: the text before the first
   `upload/`, then `upload/w_{size},h_{size}/`, then the text after that first
   marker, later markers included. There is none when `url` has no marker.
   */
  function ThumbnailUrl(url: string, size: nat): (r: Option<string>)
    ensures r.None? <==> !Contains(url, UploadMarker)
    ensures forall i: nat {:trigger IsFirstOccurrence(url, UploadMarker, i)} ::
      IsFirstOccurrence(url, UploadMarker, i) ==>
        r == Some(url[..i] + UploadMarker + TransformSegment(size) + url[i + |UploadMarker|..])
  {
    var parts := SplitOnce(url, UploadMarker);
    if |parts| < 2 then None
    else
      assert forall i: nat {:trigger IsFirstOccurrence(url, UploadMarker, i)} ::
        IsFirstOccurrence(url, UploadMarker, i) ==> i == |parts[0]| && url[..i] == parts[0] && url[i + |UploadMarker|..] == parts[1]
      by {
        forall i: nat | IsFirstOccurrence(url, UploadMarker, i)
          ensures i == |parts[0]| && url[..i] == parts[0] && url[i + |UploadMarker|..] == parts[1]
        {
          FirstOccurrenceUnique(url, UploadMarker, i, |parts[0]|);
          assert url == parts[0] + UploadMarker + parts[1];
        }
      }
      Some(parts[0] + UploadMarker + TransformSegment(size) + parts[1])
  }

  /** Strips the `size` transform from a rendition URL, giving back the URL it was derived from. */
  function OriginalUrl(thumbnailUrl: string, size: nat): Option<string> {
    var parts := SplitOnce(thumbnailUrl, UploadMarker);
    var segment := TransformSegment(size);
    if |parts| == 2 && |segment| <= |parts[1]| && parts[1][..|segment|] == segment
    then Some(parts[0] + UploadMarker + parts[1][|segment|..])
    else None
  }

  /**
   The rendition URL carries the transform right after the first marker and
   nothing else changes: removing the transform restores the original URL.
   */
  lemma {:induction false} ThumbnailUrlRoundTrip(url: string, size: nat)
    requires Contains(url, UploadMarker)
    ensures ThumbnailUrl(url, size).Some?
    ensures OriginalUrl(ThumbnailUrl(url, size).value, size) == Some(url)
  {
    var parts := SplitOnce(url, UploadMarker);
    var a, b := parts[0], parts[1];
    var segment := TransformSegment(size);
    var t := a + UploadMarker + (segment + b);
    assert ThumbnailUrl(url, size).value == t;
    var n := |a| + |UploadMarker|;
    assert url[..n] == t[..n] by {
      assert url[..n] == a + UploadMarker;
      assert t[..n] == a + UploadMarker;
    }
    forall j: nat | j < |a|
      ensures !OccursAt(t, UploadMarker, j)
    {
      OccursAtAgreeingPrefix(url, t, UploadMarker, j, n);
    }
    SplitOnceAt(a, UploadMarker, segment + b);
    assert (segment + b)[..|segment|] == segment;
    assert (segment + b)[|segment|..] == b;
  }

  /** The field name under which the `size`-pixel rendition is shown. */
  function ThumbnailKey(size: nat): (key: string)
    ensures Unframe(key, ThumbnailKeyPrefix, ThumbnailKeySuffix) == Some(size)
    ensures key != NameKey && key != UrlKey && key != LinkKey
  {
    FramedRoundTrip(ThumbnailKeyPrefix, size, ThumbnailKeySuffix);
    var key := Framed(ThumbnailKeyPrefix, size, ThumbnailKeySuffix);
    assert key[0] == 'T';
    key
  }

  /** The field name is "Thumbnail ", the decimal rendering of the size, and "px". */
  lemma ThumbnailKeyForm(size: nat)
    ensures var key := ThumbnailKey(size);
      && |ThumbnailKeyPrefix| + |ThumbnailKeySuffix| < |key|
      && key[..|ThumbnailKeyPrefix|] == ThumbnailKeyPrefix
      && key[|key| - |ThumbnailKeySuffix|..] == ThumbnailKeySuffix
      && key[|ThumbnailKeyPrefix|..|key| - |ThumbnailKeySuffix|] == NatToString(size)
  {
  }

  /** The thumbnail field names for a set of sizes. */
  function ThumbnailKeys(sizes: set<nat>): set<string> {
    set s | s in sizes :: ThumbnailKey(s)
  }

  /** Distinct sizes give distinct field names: one field per distinct size. */
  lemma {:induction false} ThumbnailKeysCount(sizes: set<nat>)
    ensures |ThumbnailKeys(sizes)| == |sizes|
    decreases |sizes|
  {
    if sizes != {} {
      var s :| s in sizes;
      var rest := sizes - {s};
      ThumbnailKeysCount(rest);
      assert ThumbnailKeys(sizes) == ThumbnailKeys(rest) + {ThumbnailKey(s)};
      assert ThumbnailKey(s) !in ThumbnailKeys(rest);
    }
  }

  /**
   The serializers' loop over the tier's thumbnail rows: each row sets the
   field for its size to the rendition URL. It raises on the first row when
   the URL has no marker; with no rows it changes nothing.
   */
  function AddThumbnails(ret: Fields, url: string, thumbnails: seq<Thumbnail>): (r: Result<Fields, ApiError>)
    ensures r.Err? <==> |thumbnails| > 0 && !Contains(url, UploadMarker)
    ensures r.Err? ==> r.error == MarkerMissing
    ensures r.Ok? ==> r.value.Keys == ret.Keys + ThumbnailKeys(SizesOf(thumbnails))
    ensures r.Ok? ==> forall s :: s in SizesOf(thumbnails) ==> ThumbnailUrl(url, s) == Some(r.value[ThumbnailKey(s)])
    ensures r.Ok? ==> forall k :: k in ret && k !in ThumbnailKeys(SizesOf(thumbnails)) ==> r.value[k] == ret[k]
    decreases |thumbnails|
  {
    if |thumbnails| == 0 then Ok(ret)
    else
      var size := thumbnails[0].size;
      match ThumbnailUrl(url, size)
      case None => Err(MarkerMissing)
      case Some(u) =>
        var rest := thumbnails[1..];
        assert SizesOf(thumbnails) == {size} + SizesOf(rest) by {
          assert thumbnails == [thumbnails[0]] + rest;
        }
        AddThumbnails(ret[ThumbnailKey(size) := u], url, rest)
  }

  /** The fields every representation starts from. */
  function BaseFields(image: Image): (f: Fields)
    ensures f.Keys == {NameKey, UrlKey}
    ensures f[NameKey] == image.name && f[UrlKey] == image.url
  {
    map[NameKey := image.name, UrlKey := image.url]
  }

  /** The tier's name lets it see thumbnails. */
  predicate ShowsThumbnails(tier: AccountTier) {
    tier.name != BasicTierName
  }

  /**
   The representation built by the serializer for tiers without link
   permission. A requester without a tier makes it raise; so does a URL
   without marker when at least one thumbnail is to be shown.
   */
  function PlainRepresentation(image: Image, requester: User): (r: Result<Fields, ApiError>)
    ensures requester.accountTier.None? ==> r == Err(TierMissing)
    ensures requester.accountTier.Some? ==>
      var tier := requester.accountTier.value;
      && (r.Err? <==> ShowsThumbnails(tier) && |tier.thumbnails| > 0 && !Contains(image.url, UploadMarker))
      && (r.Err? ==> r.error == MarkerMissing)
    ensures r.Ok? ==> NameKey in r.value && UrlKey in r.value
    ensures r.Ok? ==> r.value[NameKey] == image.name && r.value[UrlKey] == image.url
    ensures r.Ok? && !ShowsThumbnails(requester.accountTier.value) ==> r.value.Keys == {NameKey, UrlKey}
    ensures r.Ok? && ShowsThumbnails(requester.accountTier.value) ==>
      var sizes := SizesOf(requester.accountTier.value.thumbnails);
      && r.value.Keys == {NameKey, UrlKey} + ThumbnailKeys(sizes)
      && forall s :: s in sizes ==> ThumbnailUrl(image.url, s) == Some(r.value[ThumbnailKey(s)])
  {
    match requester.accountTier
    case None => Err(TierMissing)
    case Some(tier) =>
      if ShowsThumbnails(tier) then AddThumbnails(BaseFields(image), image.url, tier.thumbnails)
      else Ok(BaseFields(image))
  }

  /** The plain serializer never produces the "Expiring link" field. */
  lemma PlainHasNoLinkKey(image: Image, requester: User)
    ensures PlainRepresentation(image, requester).Ok? ==> LinkKey !in PlainRepresentation(image, requester).value
  {
    if PlainRepresentation(image, requester).Ok? && ShowsThumbnails(requester.accountTier.value) {
      var sizes := SizesOf(requester.accountTier.value.thumbnails);
      assert LinkKey !in ThumbnailKeys(sizes);
    }
  }

  /** Stored link `pk` has URL `url`. */
  predicate LinkHasUrl(links: seq<ExpiringLink>, url: string, pk: int) {
    1 <= pk <= |links| && links[pk - 1].url == url
  }

  /** Link `pk` is the one and only stored link whose URL is `url`. */
  ghost predicate IsOnlyLinkTo(links: seq<ExpiringLink>, url: string, pk: int) {
    LinkHasUrl(links, url, pk) && forall q :: LinkHasUrl(links, url, q) ==> q == pk
  }

  /** The keys of the stored links whose URL is `url`, in ascending order. */
  function LinksTo(links: seq<ExpiringLink>, url: string): (pks: seq<nat>)
    ensures |pks| == 1 <==> exists pk :: IsOnlyLinkTo(links, url, pk)
    ensures |pks| == 1 ==> IsOnlyLinkTo(links, url, pks[0])
  {
    var pks := PksWhere(links, (l: ExpiringLink) => l.url == url);
    assert forall q :: q in pks <==> LinkHasUrl(links, url, q);
    assert |pks| == 1 ==> IsOnlyLinkTo(links, url, pks[0]) by {
      if |pks| == 1 {
        assert pks[0] in pks;
        forall q | LinkHasUrl(links, url, q)
          ensures q == pks[0]
        {
          assert q in pks;
        }
      }
    }
    assert (exists pk :: IsOnlyLinkTo(links, url, pk)) ==> |pks| == 1 by {
      if exists pk :: IsOnlyLinkTo(links, url, pk) {
        var pk :| IsOnlyLinkTo(links, url, pk);
        SingleMatch(pks, links, url, pk);
      }
    }
    pks
  }

  /** An ascending list of exactly the matching keys, when only one key matches, is that key alone. */
  lemma SingleMatch(pks: seq<nat>, links: seq<ExpiringLink>, url: string, pk: int)
    requires forall q :: q in pks <==> LinkHasUrl(links, url, q)
    requires forall i, j :: 0 <= i < j < |pks| ==> pks[i] < pks[j]
    requires IsOnlyLinkTo(links, url, pk)
    ensures pks == [pk]
  {
    assert pk in pks;
    assert pks[0] in pks && pks[|pks| - 1] in pks;
  }

  /**
   The representation built by the serializer for tiers with link
   permission: the plain representation, plus the "Expiring link" field when
   exactly one stored link has the image's URL (none, or several, and the
   lookup's exception is swallowed). Its value is the absolute root without
   its last character, then the link's path.
   */
  function LinkedRepresentation(image: Image, requester: User, links: seq<ExpiringLink>, absoluteRoot: string)
    : (r: Result<Fields, ApiError>)
    ensures PlainRepresentation(image, requester).Err? ==> r == PlainRepresentation(image, requester)
    ensures PlainRepresentation(image, requester).Ok? ==> r.Ok?
    ensures r.Ok? ==> r.value - {LinkKey} == PlainRepresentation(image, requester).value
    ensures r.Ok? ==> (LinkKey in r.value <==> exists pk :: IsOnlyLinkTo(links, image.url, pk))
    ensures r.Ok? ==> forall pk :: IsOnlyLinkTo(links, image.url, pk) ==>
      r.value[LinkKey] == DropLast(absoluteRoot) + LinkPath(pk)
  {
    var plain := PlainRepresentation(image, requester);
    if plain.Err? then plain
    else
      PlainHasNoLinkKey(image, requester);
      var pks := LinksTo(links, image.url);
      if |pks| == 1 then Ok(plain.value[LinkKey := DropLast(absoluteRoot) + LinkPath(pks[0])])
      else plain
  }

  /**
   The representation the chosen serializer builds: both fail alike, with
   the same error, and they differ at most in the "Expiring link" field,
   which only the link-capable serializer ever adds.
   */
  function Represent(kind: SerializerKind, image: Image, requester: User, links: seq<ExpiringLink>, absoluteRoot: string)
    : (r: Result<Fields, ApiError>)
    ensures r.Err? <==> PlainRepresentation(image, requester).Err?
    ensures r.Err? ==> r == PlainRepresentation(image, requester)
    ensures r.Ok? ==> r.value - {LinkKey} == PlainRepresentation(image, requester).value
    ensures r.Ok? && LinkKey in r.value ==> kind == LinkSerializer
  {
    PlainHasNoLinkKey(image, requester);
    match kind
    case PlainSerializer => PlainRepresentation(image, requester)
    case LinkSerializer => LinkedRepresentation(image, requester, links, absoluteRoot)
  }
}

=== FILE: scenarios.dfy ===
/**
 The concrete scenarios of the repository's tests, stated over the model:
 a Basic tier with a thumbnail configured, a Premium tier granting 200 and
 400 pixels, and the path of the first expiring link.
 */
module Scenarios {
  import opened Outcomes
  import opened Text
  import opened Models
  import opened Representation
  import opened Views

  const TestUrl := "http:test.com/upload/test"

  lemma TestUrlMarker()
    ensures IsFirstOccurrence(TestUrl, UploadMarker, 14)
  {
    assert TestUrl[14..21] == UploadMarker;
    forall j: nat | j < 14
      ensures !OccursAt(TestUrl, UploadMarker, j)
    {
      assert TestUrl[j..j + 7][0] == TestUrl[j] != 'u';
    }
  }

  lemma Renderings()
    ensures NatToString(200) == "200" && NatToString(400) == "400" && NatToString(1) == "1"
  {
    assert NatToString(2) == "2";
    assert NatToString(20) == "20";
    assert NatToString(4) == "4";
    assert NatToString(40) == "40";
  }

  /** A Basic tier shows only name and URL, although a thumbnail size is configured. */
  lemma BasicTierScenario(name: string, size: nat)
    ensures PlainRepresentation(
      Image(1, name, TestUrl),
      User(1, "dummy_basic_user", Some(AccountTier("Basic", [Thumbnail(1, size)], false, false))))
      == Ok(map["name" := name, "url" := TestUrl])
  {
  }

  // The URL below is a parameter equal to the test URL, rather than the
  // literal itself, so that the verifier does not evaluate the marker search
  // character by character.

  /** The test URL's rendition for any size. */
  lemma TestRendition(url: string, size: nat)
    requires url == TestUrl
    ensures ThumbnailUrl(url, size) == Some("http:test.com/" + UploadMarker + TransformSegment(size) + "test")
  {
    TestUrlMarker();
    assert url[..14] == "http:test.com/";
    assert url[21..] == "test";
  }

  lemma PremiumKeys()
    ensures ThumbnailKey(200) == "Thumbnail 200px" && ThumbnailKey(400) == "Thumbnail 400px"
  {
    Renderings();
  }

  lemma Segments()
    ensures TransformSegment(200) == "w_200,h_200/" && TransformSegment(400) == "w_400,h_400/"
  {
    Renderings();
  }

  /** The test URL's rendition text around the 200-pixel resize segment. */
  lemma RenditionText200(seg: string)
    requires seg == "w_200,h_200/"
    ensures "http:test.com/" + UploadMarker + seg + "test" == "http:test.com/upload/w_200,h_200/test"
  {
  }

  /** The test URL's rendition text around the 400-pixel resize segment. */
  lemma RenditionText400(seg: string)
    requires seg == "w_400,h_400/"
    ensures "http:test.com/" + UploadMarker + seg + "test" == "http:test.com/upload/w_400,h_400/test"
  {
  }

  lemma PremiumUrl200(url: string)
    requires url == TestUrl
    ensures ThumbnailUrl(url, 200) == Some("http:test.com/upload/w_200,h_200/test")
  {
    TestRendition(url, 200);
    Segments();
    RenditionText200(TransformSegment(200));
  }

  lemma PremiumUrl400(url: string)
    requires url == TestUrl
    ensures ThumbnailUrl(url, 400) == Some("http:test.com/upload/w_400,h_400/test")
  {
    TestRendition(url, 400);
    Segments();
    RenditionText400(TransformSegment(400));
  }

  /** One turn of the loop: the first row's field is set, then the rest are processed. */
  lemma AddThumbnailsStep(ret: Fields, url: string, t: Thumbnail, rest: seq<Thumbnail>, u: string)
    requires ThumbnailUrl(url, t.size) == Some(u)
    ensures AddThumbnails(ret, url, [t] + rest) == AddThumbnails(ret[ThumbnailKey(t.size) := u], url, rest)
  {
    assert ([t] + rest)[1..] == rest;
  }

  /** A Premium tier granting 200 and 400 pixels shows both renditions. */
  lemma PremiumTierScenario(name: string, url: string)
    requires url == TestUrl
    ensures PlainRepresentation(
      Image(1, name, url),
      User(1, "dummy_premium_user",
        Some(AccountTier("Premium", [Thumbnail(1, 200), Thumbnail(2, 400)], true, false))))
      == Ok(map[
        "name" := name,
        "url" := url,
        "Thumbnail 200px" := "http:test.com/upload/w_200,h_200/test",
        "Thumbnail 400px" := "http:test.com/upload/w_400,h_400/test"])
  {
    var u200, u400 := "http:test.com/upload/w_200,h_200/test", "http:test.com/upload/w_400,h_400/test";
    var t1, t2 := Thumbnail(1, 200), Thumbnail(2, 400);
    var base := map["name" := name, "url" := url];
    PremiumKeys();
    PremiumUrl200(url);
    PremiumUrl400(url);
    var m1 := base["Thumbnail 200px" := u200];
    AddThumbnailsStep(base, url, t1, [t2], u200);
    AddThumbnailsStep(m1, url, t2, [], u400);
    assert [t1] + [t2] == [t1, t2];
    assert [t2] + [] == [t2];
  }

  /**
   A tier with link permission but no stored link to the image shows the same
   fields as the Premium tier: the "Expiring link" field is absent.
   */
  lemma EnterpriseTierScenario(name: string, url: string, root: string)
    requires url == TestUrl
    ensures LinkedRepresentation(
      Image(1, name, url),
      User(1, "dummy_enterprise_user",
        Some(AccountTier("Enterprise", [Thumbnail(1, 200), Thumbnail(2, 400)], true, true))),
      [], root)
      == Ok(map[
        "name" := name,
        "url" := url,
        "Thumbnail 200px" := "http:test.com/upload/w_200,h_200/test",
        "Thumbnail 400px" := "http:test.com/upload/w_400,h_400/test"])
  {
    var image := Image(1, name, url);
    var tier := AccountTier("Enterprise", [Thumbnail(1, 200), Thumbnail(2, 400)], true, true);
    PremiumTierScenario(name, url);
    assert PlainRepresentation(image, User(1, "dummy_enterprise_user", Some(tier)))
      == PlainRepresentation(image, User(1, "dummy_premium_user", Some(tier.(name := "Premium", fetchUrl := false))));
  }

  /** A freshly created link with a non-negative lifetime resolves to its URL. */
  lemma FreshLinkScenario(link: ExpiringLink)
    requires link.expirationTime >= 0
    ensures RetrieveLink([link], 1, link.createdTime) == LinkFound(StatusOk, map["url" := link.url])
  {
  }

  /** The first expiring link lives at `/api/expiringlink/1/`. */
  lemma FirstLinkPath()
    ensures LinkPath(1) == "/api/expiringlink/1/"
  {
    Renderings();
  }
}

=== FILE: text.dfy ===
/**
 String operations the serializers and models rely on: Python's decimal
 rendering of an `int` (`str(n)`, `f"{n}"`), its inverse, the search for
 the first occurrence of a separator, and `s.split(sep, 1)`.
 */
module Text {
  import opened Outcomes

  predicate IsDigit(c: char) {
    '0' <= c <= '9'
  }

  predicate AllDigits(s: string) {
    forall i :: 0 <= i < |s| ==> IsDigit(s[i])
  }

  function DigitValue(c: char): (d: nat)
    requires IsDigit(c)
    ensures d < 10
  {
    (c as int) - ('0' as int)
  }

  function DigitChar(d: nat): (c: char)
    requires d < 10
    ensures IsDigit(c) && DigitValue(c) == d
  {
    "0123456789"[d]
  }

  /** `str(n)` for a non-negative Python int: decimal digits, no sign, no leading zero. */
  function NatToString(n: nat): (s: string)
    ensures |s| > 0 && AllDigits(s)
    ensures n > 0 ==> s[0] != '0'
    ensures n == 0 ==> s == "0"
    decreases n
  {
    if n < 10 then [DigitChar(n)] else NatToString(n / 10) + [DigitChar(n % 10)]
  }

  /** The number a run of decimal digits denotes; the empty run denotes 0. */
  function DigitsValue(s: string): nat
    requires AllDigits(s)
    decreases |s|
  {
    if |s| == 0 then 0 else DigitsValue(s[..|s| - 1]) * 10 + DigitValue(s[|s| - 1])
  }

  /** `int(s)` restricted to plain digit strings; anything else has no value. */
  function ParseNat(s: string): (r: Option<nat>)
    ensures r.Some? <==> |s| > 0 && AllDigits(s)
  {
    if |s| > 0 && AllDigits(s) then Some(DigitsValue(s)) else None
  }

  lemma {:induction false} DigitsValueOfNatToString(n: nat)
    ensures DigitsValue(NatToString(n)) == n
    decreases n
  {
    if n >= 10 {
      var s := NatToString(n);
      var prefix := NatToString(n / 10);
      assert s == prefix + [DigitChar(n % 10)];
      assert s[..|s| - 1] == prefix;
      DigitsValueOfNatToString(n / 10);
    }
  }

  /** Parsing the rendering of `n` gives `n` back. */
  lemma ParseNatToString(n: nat)
    ensures ParseNat(NatToString(n)) == Some(n)
  {
    DigitsValueOfNatToString(n);
  }

  /** Distinct numbers have distinct renderings. */
  lemma NatToStringInjective(a: nat, b: nat)
    ensures NatToString(a) == NatToString(b) ==> a == b
  {
    ParseNatToString(a);
    ParseNatToString(b);
  }

  /** `pat` occurs in `s` starting at index `i`. */
  predicate OccursAt(s: string, pat: string, i: nat) {
    i + |pat| <= |s| && s[i..i + |pat|] == pat
  }

  /** `i` is the leftmost index at which `pat` occurs in `s`. */
  ghost predicate IsFirstOccurrence(s: string, pat: string, i: nat) {
    OccursAt(s, pat, i) && forall j: nat :: j < i ==> !OccursAt(s, pat, j)
  }

  /** `pat` occurs somewhere in `s` (Python's `pat in s`). */
  ghost predicate Contains(s: string, pat: string) {
    exists j: nat :: OccursAt(s, pat, j)
  }

  /** A string has at most one leftmost occurrence of a pattern. */
  lemma FirstOccurrenceUnique(s: string, pat: string, i: nat, k: nat)
    requires IsFirstOccurrence(s, pat, i) && IsFirstOccurrence(s, pat, k)
    ensures i == k
  {
  }

  /** The leftmost occurrence of `pat` in `s` at or after `from`, if any. */
  function FindFrom(s: string, pat: string, from: nat): (r: Option<nat>)
    requires from <= |s|
    ensures r.Some? ==> from <= r.value && OccursAt(s, pat, r.value)
    ensures forall j: nat :: from <= j && (r.None? || j < r.value) ==> !OccursAt(s, pat, j)
    decreases |s| - from
  {
    if OccursAt(s, pat, from) then Some(from)
    else if from == |s| then None
    else FindFrom(s, pat, from + 1)
  }

  /** Two strings that agree on their first `n` characters have the same
      occurrences of `pat` wherever the occurrence ends within those `n`. */
  lemma OccursAtAgreeingPrefix(s: string, t: string, pat: string, j: nat, n: nat)
    requires j + |pat| <= n <= |s| && n <= |t|
    requires s[..n] == t[..n]
    ensures OccursAt(s, pat, j) <==> OccursAt(t, pat, j)
  {
    assert s[j..j + |pat|] == s[..n][j..j + |pat|];
    assert t[j..j + |pat|] == t[..n][j..j + |pat|];
  }

  /**
   `s.split(sep, 1)`: the text before the first `sep` and the text after it,
   or the whole string alone when `sep` does not occur. Python refuses an
   empty separator.
   */
  function SplitOnce(s: string, sep: string): (parts: seq<string>)
    requires |sep| > 0
    ensures 1 <= |parts| <= 2
    ensures |parts| == 1 <==> !Contains(s, sep)
    ensures |parts| == 1 ==> parts[0] == s
    ensures |parts| == 2 ==> parts[0] + sep + parts[1] == s
    ensures |parts| == 2 ==> IsFirstOccurrence(s, sep, |parts[0]|)
    ensures |parts| == 2 ==> !Contains(parts[0], sep)
  {
    match FindFrom(s, sep, 0)
    case None => [s]
    case Some(i) =>
      var parts := [s[..i], s[i + |sep|..]];
      assert parts[0] + sep + parts[1] == s by {
        assert s == s[..i] + s[i..i + |sep|] + s[i + |sep|..];
      }
      assert !Contains(parts[0], sep) by {
        forall j: nat | OccursAt(parts[0], sep, j)
          ensures false
        {
          OccursAtAgreeingPrefix(parts[0], s, sep, j, i);
        }
      }
      parts
  }

  /**
   Splitting `a + sep + b` once at `sep` gives back `a` and `b` when no
   occurrence of `sep` starts inside `a` (it may still occur inside `b`).
   */
  lemma {:induction false} SplitOnceAt(a: string, sep: string, b: string)
    requires |sep| > 0
    requires forall j: nat :: j < |a| ==> !OccursAt(a + sep + b, sep, j)
    ensures SplitOnce(a + sep + b, sep) == [a, b]
  {
    var s := a + sep + b;
    assert OccursAt(s, sep, |a|) by {
      assert s[|a|..|a| + |sep|] == sep;
    }
    var parts := SplitOnce(s, sep);
    assert |parts| == 2;
    var i := |parts[0]|;
    assert IsFirstOccurrence(s, sep, i);
    assert i == |a|;
    assert parts[0] == s[..i];
    assert parts[1] == s[i + |sep|..];
  }

  /** `prefix`, then the decimal rendering of `n`, then `suffix`: the shape of
      `f"{prefix}{n}{suffix}"`. */
  function Framed(prefix: string, n: nat, suffix: string): string {
    prefix + NatToString(n) + suffix
  }

  /** The number framed by `prefix` and `suffix` in `s`, if `s` has that shape. */
  function Unframe(s: string, prefix: string, suffix: string): (r: Option<nat>)
    ensures r.Some? ==> |prefix| + |suffix| < |s|
  {
    if |prefix| + |suffix| <= |s| && s[..|prefix|] == prefix && s[|s| - |suffix|..] == suffix
    then ParseNat(s[|prefix|..|s| - |suffix|])
    else None
  }

  /** Unframing a framed number gives the number back. */
  lemma FramedRoundTrip(prefix: string, n: nat, suffix: string)
    ensures Unframe(Framed(prefix, n, suffix), prefix, suffix) == Some(n)
  {
    var digits := NatToString(n);
    var s := Framed(prefix, n, suffix);
    assert s[..|prefix|] == prefix;
    assert s[|s| - |suffix|..] == suffix;
    assert s[|prefix|..|s| - |suffix|] == digits;
    ParseNatToString(n);
  }

  /** Equal framings with the same frame carry the same number. */
  lemma FramedInjective(prefix: string, a: nat, b: nat, suffix: string)
    ensures Framed(prefix, a, suffix) == Framed(prefix, b, suffix) ==> a == b
  {
    FramedRoundTrip(prefix, a, suffix);
    FramedRoundTrip(prefix, b, suffix);
  }

  /** Python's `s[:-1]`: every character but the last (empty stays empty). */
  function DropLast(s: string): (r: string)
    ensures |s| > 0 ==> |r| == |s| - 1 && r + [s[|s| - 1]] == s
    ensures |s| == 0 ==> r == s
  {
    if |s| == 0 then s else s[..|s| - 1]
  }
}

=== FILE: uploads.dfy ===
/**
 Image creation as both image serializers perform it: field validation,
 the upload parameters the tier calls for, the stored image record and,
 for the link-capable serializer, the optional expiring link.

 The media provider is a parameter: a function from the file and the
 upload parameters to the URL it answers with.
 */
module Uploads {
  import opened Outcomes
  import opened Models
  import opened Representation

  const AllowedExtensions: set<string> := {"jpg", "png"}
  const MinLinkExpiry := 300
  const MaxLinkExpiry := 30000

  /** Side length and crop mode of the reduced upload for tiers without original size. */
  const ReducedSide := 200
  const ReducedCrop := "scale"

  /** An uploaded file as the image field sees it: extension, byte length, and whether it decodes as an image. */
  datatype ImageFile = ImageFile(extension: string, length: nat, decodable: bool)

  /** The multipart request body; each field may be absent. */
  datatype UploadRequest = UploadRequest(name: Option<string>, image: Option<ImageFile>, linkExpiryTime: Option<int>)

  /** The fields that survive validation. */
  datatype ValidatedUpload = ValidatedUpload(name: string, image: ImageFile, linkExpiryTime: Option<int>)

  /** The provider's resize request. */
  datatype Transform = Transform(height: nat, width: nat, crop: string)

  /** The keyword arguments of the provider's upload call. */
  datatype UploadParams = UploadParams(folder: string, publicId: string, overwrite: bool, transform: Option<Transform>)

  /** The media provider: file and parameters in, canonical URL out. */
  type Provider = (ImageFile, UploadParams) -> string

  /** The result of a successful `create`: the new image and the tables after it. */
  datatype Created = Created(image: Image, store: Store)

  /** The image field accepts a non-empty, decodable file with an allowed extension. */
  predicate ValidImageFile(file: ImageFile) {
    file.length > 0 && file.decodable && file.extension in AllowedExtensions
  }

  /**
   The name field accepts a non-blank name within the column's length, free
   of NUL characters (the text field refuses them), that no image has yet.
   */
  predicate ValidImageName(images: seq<Image>, name: string) {
    0 < |name| <= MaxImageNameLength && '\0' !in name && !NameTaken(images, name)
  }

  /** The link lifetime field accepts whole seconds within the declared bounds. */
  predicate ValidLinkExpiry(seconds: int) {
    MinLinkExpiry <= seconds <= MaxLinkExpiry
  }

  /**
   The serializer's validation. The lifetime field exists only on the
   link-capable serializer; the plain one ignores it.
   */
  function Validate(kind: SerializerKind, images: seq<Image>, request: UploadRequest): (r: Option<ValidatedUpload>)
    ensures r.Some? <==>
      && request.name.Some? && ValidImageName(images, request.name.value)
      && request.image.Some? && ValidImageFile(request.image.value)
      && (kind == LinkSerializer && request.linkExpiryTime.Some? ==> ValidLinkExpiry(request.linkExpiryTime.value))
    ensures r.Some? ==> r.value.name == request.name.value && r.value.image == request.image.value
    ensures r.Some? && kind == PlainSerializer ==> r.value.linkExpiryTime.None?
    ensures r.Some? && kind == LinkSerializer ==> r.value.linkExpiryTime == request.linkExpiryTime
  {
    if request.name.None? || request.image.None? then None
    else if !ValidImageName(images, request.name.value) || !ValidImageFile(request.image.value) then None
    else match kind
      case PlainSerializer => Some(ValidatedUpload(request.name.value, request.image.value, None))
      case LinkSerializer =>
        if request.linkExpiryTime.Some? && !ValidLinkExpiry(request.linkExpiryTime.value) then None
        else Some(ValidatedUpload(request.name.value, request.image.value, request.linkExpiryTime))
  }

  /**
   The provider call: into the owner's folder under the image's name,
   overwriting, and reduced to a 200 by 200 scale unless the tier keeps
   original sizes.
   */
  function UploadParamsFor(tier: AccountTier, owner: User, name: string): (p: UploadParams)
    ensures p.folder == owner.username && p.publicId == name && p.overwrite
    ensures p.transform.None? <==> tier.originalSize
    ensures p.transform.Some? ==> p.transform.value == Transform(ReducedSide, ReducedSide, ReducedCrop)
  {
    if tier.originalSize then UploadParams(owner.username, name, true, None)
    else UploadParams(owner.username, name, true, Some(Transform(ReducedSide, ReducedSide, ReducedCrop)))
  }

  /** Of the tier, only whether it keeps original sizes shapes the upload. */
  lemma UploadDependsOnlyOnOriginalSize(t1: AccountTier, t2: AccountTier, owner: User, name: string)
    ensures UploadParamsFor(t1, owner, name) == UploadParamsFor(t2, owner, name) <==> t1.originalSize == t2.originalSize
  {
  }

  /**
   `create`: nothing when validation fails; a raise when the requester has
   no tier; otherwise the provider is called, the image stored with the URL
   it returned, and, for the link-capable serializer with a lifetime
   supplied, an expiring link to that URL stored as well. A failure to store
   the link (`linkSaved` false) is swallowed and the image still returned.
   */
  function Create(
    kind: SerializerKind, store: Store, requester: User, request: UploadRequest,
    upload: Provider, now: int, linkSaved: bool): (r: Result<Option<Created>, ApiError>)
    ensures r == Ok(None) <==> Validate(kind, store.images, request).None?
    ensures r.Err? <==> Validate(kind, store.images, request).Some? && requester.accountTier.None?
    ensures r.Err? ==> r.error == TierMissing
    ensures r.Ok? && r.value.Some? ==>
      var c := r.value.value;
      var name := request.name.value;
      && c.image == Image(requester.id, name, upload(request.image.value, UploadParamsFor(requester.accountTier.value, requester, name)))
      && c.store.images == store.images + [c.image]
    ensures r.Ok? && r.value.Some? ==>
      var c := r.value.value;
      if kind == LinkSerializer && request.linkExpiryTime.Some? && linkSaved
      then c.store.links == store.links + [ExpiringLink(c.image.url, |c.store.images|, now, request.linkExpiryTime.value)]
      else c.store.links == store.links
  {
    match Validate(kind, store.images, request)
    case None => Ok(None)
    case Some(data) =>
      match requester.accountTier
      case None => Err(TierMissing)
      case Some(tier) =>
        var url := upload(data.image, UploadParamsFor(tier, requester, data.name));
        var image := Image(requester.id, data.name, url);
        var images := store.images + [image];
        var links :=
          if data.linkExpiryTime.Some? && linkSaved
          then store.links + [ExpiringLink(image.url, |images|, now, data.linkExpiryTime.value)]
          else store.links;
        Ok(Some(Created(image, Store(images, links))))
  }

  /** A stored link points at an existing image, copies its URL and has an accepted lifetime. */
  predicate LinkWellFormed(images: seq<Image>, link: ExpiringLink) {
    && 1 <= link.image <= |images|
    && link.url == images[link.image - 1].url
    && ValidLinkExpiry(link.expirationTime)
  }

  /** What the tables look like when every row came in through `create`. */
  ghost predicate ValidStore(store: Store) {
    && NamesUnique(store.images)
    && (forall i :: 0 <= i < |store.images| ==> 0 < |store.images[i].name| <= MaxImageNameLength)
    && (forall k :: 0 <= k < |store.links| ==> LinkWellFormed(store.images, store.links[k]))
  }

  /** `create` keeps image names unique and every link well formed. */
  lemma {:induction false} CreatePreservesValidStore(
    kind: SerializerKind, store: Store, requester: User, request: UploadRequest,
    upload: Provider, now: int, linkSaved: bool)
    requires ValidStore(store)
    requires Create(kind, store, requester, request, upload, now, linkSaved).Ok?
    requires Create(kind, store, requester, request, upload, now, linkSaved).value.Some?
    ensures ValidStore(Create(kind, store, requester, request, upload, now, linkSaved).value.value.store)
  {
    var c := Create(kind, store, requester, request, upload, now, linkSaved).value.value;
    var name := request.name.value;
    assert ValidImageName(store.images, name);
    forall i, j | 0 <= i < j < |c.store.images|
      ensures c.store.images[i].name != c.store.images[j].name
    {
      if j == |store.images| {
        assert c.store.images[i] == store.images[i];
      }
    }
    forall k | 0 <= k < |c.store.links|
      ensures LinkWellFormed(c.store.images, c.store.links[k])
    {
      if k < |store.links| {
        assert c.store.links[k] == store.links[k];
        assert LinkWellFormed(store.images, store.links[k]);
      }
    }
  }

  /**
   Both serializers upload and store the image alike: when a request passes
   both validations, the image record they create is the same.
   */
  lemma SerializersStoreSameImage(
    store: Store, requester: User, request: UploadRequest, upload: Provider, now: int, linkSaved: bool)
    requires Validate(PlainSerializer, store.images, request).Some?
    requires Validate(LinkSerializer, store.images, request).Some?
    requires requester.accountTier.Some?
    ensures Create(PlainSerializer, store, requester, request, upload, now, linkSaved).value.value.store.images
      == Create(LinkSerializer, store, requester, request, upload, now, linkSaved).value.value.store.images
  {
  }

  /** A name already in use is refused, whoever owns the image that has it. */
  lemma DuplicateNameRefused(
    kind: SerializerKind, store: Store, requester: User, request: UploadRequest,
    upload: Provider, now: int, linkSaved: bool, existing: nat)
    requires existing < |store.images|
    requires request.name == Some(store.images[existing].name)
    ensures Create(kind, store, requester, request, upload, now, linkSaved) == Ok(None)
  {
    assert NameTaken(store.images, request.name.value);
  }

  /**
   A link is stored only by the link-capable serializer, only when a
   lifetime was supplied, and only with a lifetime inside the bounds.
   */
  lemma LinkOnlyWithAcceptedLifetime(
    kind: SerializerKind, store: Store, requester: User, request: UploadRequest,
    upload: Provider, now: int, linkSaved: bool)
    requires Create(kind, store, requester, request, upload, now, linkSaved).Ok?
    requires Create(kind, store, requester, request, upload, now, linkSaved).value.Some?
    requires |Create(kind, store, requester, request, upload, now, linkSaved).value.value.store.links| != |store.links|
    ensures kind == LinkSerializer && request.linkExpiryTime.Some?
    ensures ValidLinkExpiry(request.linkExpiryTime.value)
  {
  }
}

=== FILE: views.dfy ===
/**
 The two endpoints: resolving an expiring link, and reading the requester's
 own images through the serializer their tier selects.

 Time is an integer number of seconds on the server's clock; the current
 time is a parameter.
 */
module Views {
  import opened Outcomes
  import opened Text
  import opened Models
  import opened Representation

  const ExpiredMessage := "This link has expired!"
  const StatusOk := 200

  /** The link endpoint's answer: not found, or a status with a JSON body. */
  datatype LinkResponse = LinkNotFound | LinkFound(status: nat, body: Fields)

  /** The last moment at which the link is still served: creation plus lifetime. */
  function Deadline(link: ExpiringLink): int {
    link.createdTime + link.expirationTime
  }

  /** The link has expired once the current time is strictly past its deadline. */
  predicate IsExpired(link: ExpiringLink, now: int) {
    Deadline(link) < now
  }

  /** At its deadline a link is still valid; one second later it has expired. */
  lemma ExpiryBoundary(link: ExpiringLink)
    ensures !IsExpired(link, link.createdTime + link.expirationTime)
    ensures IsExpired(link, link.createdTime + link.expirationTime + 1)
  {
  }

  /** Expiry is one-way: an expired link stays expired at every later time. */
  lemma ExpiryIsMonotonic(link: ExpiringLink, t: int, later: int)
    requires t <= later && IsExpired(link, t)
    ensures IsExpired(link, later)
  {
  }

  /** The body of a link that has expired. */
  function ExpiredBody(): Fields {
    map[UrlKey := ExpiredMessage]
  }

  /**
   `retrieve` on the link endpoint: not found for an unknown key; otherwise
   a normal answer whose only field `url` is the destination while the link
   is valid and the expiry message afterwards.
   */
  function RetrieveLink(links: seq<ExpiringLink>, pk: int, now: int): (r: LinkResponse)
    ensures r.LinkNotFound? <==> !(1 <= pk <= |links|)
    ensures r.LinkFound? ==> r.status == StatusOk && r.body.Keys == {UrlKey}
    ensures r.LinkFound? && IsExpired(links[pk - 1], now) ==> r.body[UrlKey] == ExpiredMessage
    ensures r.LinkFound? && !IsExpired(links[pk - 1], now) ==> r.body[UrlKey] == links[pk - 1].url
  {
    match RowAt(links, pk)
    case None => LinkNotFound
    case Some(link) =>
      if IsExpired(link, now) then LinkFound(StatusOk, ExpiredBody())
      else LinkFound(StatusOk, map[UrlKey := link.url])
  }

  /** Once the endpoint answers that a link has expired, it answers so at every later time. */
  lemma ExpiredAnswerIsFinal(links: seq<ExpiringLink>, pk: int, t: int, later: int)
    requires 1 <= pk <= |links| && IsExpired(links[pk - 1], t) && t <= later
    ensures RetrieveLink(links, pk, later) == LinkFound(StatusOk, ExpiredBody())
  {
    ExpiryIsMonotonic(links[pk - 1], t, later);
  }

  /**
   `get_serializer_class`: the link-capable serializer exactly for tiers
   that may fetch links; a requester without a tier makes it raise.
   */
  function ChooseSerializer(requester: User): (r: Result<SerializerKind, ApiError>)
    ensures r.Err? <==> requester.accountTier.None?
    ensures r.Err? ==> r.error == TierMissing
    ensures r.Ok? ==> (r.value == LinkSerializer <==> requester.accountTier.value.fetchUrl)
  {
    match requester.accountTier
    case None => Err(TierMissing)
    case Some(tier) => if tier.fetchUrl then Ok(LinkSerializer) else Ok(PlainSerializer)
  }

  /** Image `pk` exists and belongs to `requester`. */
  predicate OwnedBy(images: seq<Image>, pk: int, requester: User) {
    1 <= pk <= |images| && images[pk - 1].owner == requester.id
  }

  /** `get_queryset`: the keys of exactly the requester's images, ascending. */
  function VisibleImages(images: seq<Image>, requester: User): (pks: seq<nat>)
    ensures forall pk :: pk in pks <==> OwnedBy(images, pk, requester)
    ensures forall i, j :: 0 <= i < j < |pks| ==> pks[i] < pks[j]
  {
    PksWhere(images, (image: Image) => image.owner == requester.id)
  }

  /**
   `retrieve` on the image endpoint: not found unless the image is the
   requester's own; otherwise what the serializer chosen by the tier builds.
   */
  function RetrieveImage(store: Store, requester: User, pk: int, absoluteRoot: string): (r: Result<Fields, ApiError>)
    ensures r == Err(NotFound) <==> !OwnedBy(store.images, pk, requester)
    ensures OwnedBy(store.images, pk, requester) && requester.accountTier.None? ==> r == Err(TierMissing)
    ensures OwnedBy(store.images, pk, requester) && requester.accountTier.Some? && r.Err? ==> r == Err(MarkerMissing)
    ensures r.Ok? ==>
      && requester.accountTier.Some?
      && NameKey in r.value && r.value[NameKey] == store.images[pk - 1].name
      && UrlKey in r.value && r.value[UrlKey] == store.images[pk - 1].url
      && (LinkKey in r.value ==> requester.accountTier.value.fetchUrl)
  {
    if pk !in VisibleImages(store.images, requester) then Err(NotFound)
    else match ChooseSerializer(requester)
      case Err(e) => Err(e)
      case Ok(kind) => Represent(kind, store.images[pk - 1], requester, store.links, absoluteRoot)
  }

  /** Applies `f` to each element in order: all the results, or the first error. */
  function CollectAll<T, U, E>(xs: seq<T>, f: T -> Result<U, E>): (r: Result<seq<U>, E>)
    ensures r.Ok? <==> forall i :: 0 <= i < |xs| ==> f(xs[i]).Ok?
    ensures r.Ok? ==> |r.value| == |xs| && forall i :: 0 <= i < |xs| ==> f(xs[i]) == Ok(r.value[i])
    ensures r.Err? ==> exists i :: 0 <= i < |xs| && f(xs[i]) == Err(r.error)
    decreases |xs|
  {
    if |xs| == 0 then Ok([])
    else
      match f(xs[0])
      case Err(e) => Err(e)
      case Ok(first) =>
        match CollectAll(xs[1..], f)
        case Err(e) =>
          assert exists i :: 1 <= i < |xs| && f(xs[i]) == Err(e) by {
            var i :| 0 <= i < |xs[1..]| && f(xs[1..][i]) == Err(e);
            assert xs[1..][i] == xs[i + 1];
          }
          Err(e)
        case Ok(rest) => Ok([first] + rest)
  }

  /** The requester's images, in ascending key order. */
  function OwnedImages(store: Store, requester: User): (owned: seq<Image>)
    ensures |owned| == |VisibleImages(store.images, requester)|
    ensures forall i :: 0 <= i < |owned| ==>
      var pk := VisibleImages(store.images, requester)[i];
      OwnedBy(store.images, pk, requester) && owned[i] == store.images[pk - 1]
  {
    var pks := VisibleImages(store.images, requester);
    assert forall i :: 0 <= i < |pks| ==> pks[i] in pks && OwnedBy(store.images, pks[i], requester);
    seq(|pks|, i requires 0 <= i < |pks| => store.images[pks[i] - 1])
  }

  /** The chosen serializer as a function of the image alone. */
  function Serializer(kind: SerializerKind, requester: User, links: seq<ExpiringLink>, absoluteRoot: string): Image -> Result<Fields, ApiError> {
    image => Represent(kind, image, requester, links, absoluteRoot)
  }

  /**
   `list` on the image endpoint: the requester's images, each as the
   serializer chosen by the tier builds it. The serializer is chosen even
   when the list is empty, so a requester without a tier makes it raise.
   */
  function ListImages(store: Store, requester: User, absoluteRoot: string): (r: Result<seq<Fields>, ApiError>)
    ensures requester.accountTier.None? ==> r == Err(TierMissing)
    ensures requester.accountTier.Some? ==>
      (r.Ok? <==> forall pk :: OwnedBy(store.images, pk, requester) ==> RetrieveImage(store, requester, pk, absoluteRoot).Ok?)
    ensures requester.accountTier.Some? && r.Err? ==> r == Err(MarkerMissing)
    ensures r.Ok? ==> |r.value| == |VisibleImages(store.images, requester)|
    ensures r.Ok? ==> forall i :: 0 <= i < |r.value| ==>
      var pk := VisibleImages(store.images, requester)[i];
      && OwnedBy(store.images, pk, requester)
      && RetrieveImage(store, requester, pk, absoluteRoot) == Ok(r.value[i])
  {
    match ChooseSerializer(requester)
    case Err(e) => Err(e)
    case Ok(kind) =>
      ListedAreRetrieved(store, requester, absoluteRoot, kind);
      CollectAll(OwnedImages(store, requester), Serializer(kind, requester, store.links, absoluteRoot))
  }

  /** Serializing the requester's images one by one agrees with the detail view of each. */
  lemma ListedAreRetrieved(store: Store, requester: User, absoluteRoot: string, kind: SerializerKind)
    requires ChooseSerializer(requester) == Ok(kind)
    ensures var r := CollectAll(OwnedImages(store, requester), Serializer(kind, requester, store.links, absoluteRoot));
      && (r.Ok? <==> forall pk :: OwnedBy(store.images, pk, requester) ==> RetrieveImage(store, requester, pk, absoluteRoot).Ok?)
      && (r.Ok? ==> |r.value| == |VisibleImages(store.images, requester)|)
      && (r.Ok? ==> forall i :: 0 <= i < |r.value| ==>
        var pk := VisibleImages(store.images, requester)[i];
        && OwnedBy(store.images, pk, requester)
        && RetrieveImage(store, requester, pk, absoluteRoot) == Ok(r.value[i]))
  {
    var pks := VisibleImages(store.images, requester);
    ListedAgree(store, requester, absoluteRoot, kind);
    EachIffEvery(pks, pk => OwnedBy(store.images, pk, requester), pk => RetrieveImage(store, requester, pk, absoluteRoot).Ok?);
  }

  /** The detail view of the `i`-th visible image is the chosen serializer applied to the `i`-th own image. */
  lemma ListedAgree(store: Store, requester: User, absoluteRoot: string, kind: SerializerKind)
    requires ChooseSerializer(requester) == Ok(kind)
    ensures forall i :: 0 <= i < |VisibleImages(store.images, requester)| ==>
      RetrieveImage(store, requester, VisibleImages(store.images, requester)[i], absoluteRoot)
        == Serializer(kind, requester, store.links, absoluteRoot)(OwnedImages(store, requester)[i])
  {
    forall i | 0 <= i < |VisibleImages(store.images, requester)|
      ensures RetrieveImage(store, requester, VisibleImages(store.images, requester)[i], absoluteRoot)
        == Serializer(kind, requester, store.links, absoluteRoot)(OwnedImages(store, requester)[i])
    {
      ListedAgreeAt(store, requester, absoluteRoot, kind, i);
    }
  }

  /** One element of `ListedAgree`. */
  lemma ListedAgreeAt(store: Store, requester: User, absoluteRoot: string, kind: SerializerKind, i: nat)
    requires ChooseSerializer(requester) == Ok(kind)
    requires i < |VisibleImages(store.images, requester)|
    ensures RetrieveImage(store, requester, VisibleImages(store.images, requester)[i], absoluteRoot)
      == Serializer(kind, requester, store.links, absoluteRoot)(OwnedImages(store, requester)[i])
  {
    var pk := VisibleImages(store.images, requester)[i];
    var image := OwnedImages(store, requester)[i];
    assert image == store.images[pk - 1];
    RetrieveOwnedImage(store, requester, pk, absoluteRoot, kind);
  }

  /**
   A list holding exactly the keys that satisfy `member` has every element
   satisfying `ok` exactly when every such key does.
   */
  lemma EachIffEvery(keys: seq<nat>, member: int -> bool, ok: int -> bool)
    requires forall k :: k in keys <==> member(k)
    ensures (forall i :: 0 <= i < |keys| ==> ok(keys[i])) <==> (forall k :: member(k) ==> ok(k))
  {
    if forall i :: 0 <= i < |keys| ==> ok(keys[i]) {
      forall k | member(k)
        ensures ok(k)
      {
        assert k in keys;
        var i :| 0 <= i < |keys| && keys[i] == k;
      }
    }
  }

  /** For an image of the requester's, the detail view is what the chosen serializer builds. */
  lemma RetrieveOwnedImage(store: Store, requester: User, pk: int, absoluteRoot: string, kind: SerializerKind)
    requires OwnedBy(store.images, pk, requester)
    requires ChooseSerializer(requester) == Ok(kind)
    ensures RetrieveImage(store, requester, pk, absoluteRoot) == Represent(kind, store.images[pk - 1], requester, store.links, absoluteRoot)
  {
    assert pk in VisibleImages(store.images, requester);
  }

  /**
   The detail view of an own image, for a tier that may fetch links, shows
   the "Expiring link" field exactly when one stored link has the image's URL.
   */
  lemma DetailShowsLink(store: Store, requester: User, pk: int, absoluteRoot: string)
    requires OwnedBy(store.images, pk, requester)
    requires requester.accountTier.Some? && requester.accountTier.value.fetchUrl
    requires RetrieveImage(store, requester, pk, absoluteRoot).Ok?
    ensures var url := store.images[pk - 1].url;
      LinkKey in RetrieveImage(store, requester, pk, absoluteRoot).value <==> exists q :: IsOnlyLinkTo(store.links, url, q)
  {
    RetrieveOwnedImage(store, requester, pk, absoluteRoot, LinkSerializer);
  }

  /**
   `advertised` is `host` followed by a path that the link endpoint resolves
   to a stored link, which answers with `url` until it expires and with the
   expiry message afterwards.
   */
  predicate ResolvesTo(advertised: string, host: string, links: seq<ExpiringLink>, url: string, now: int) {
    && |host| <= |advertised| && advertised[..|host|] == host
    && LinkPkOfPath(advertised[|host|..]).Some?
    && var pk := LinkPkOfPath(advertised[|host|..]).value;
       && 1 <= pk <= |links|
       && (!IsExpired(links[pk - 1], now) ==> RetrieveLink(links, pk, now) == LinkFound(StatusOk, map[UrlKey := url]))
       && (IsExpired(links[pk - 1], now) ==> RetrieveLink(links, pk, now) == LinkFound(StatusOk, ExpiredBody()))
  }

  /**
   The "Expiring link" field of a representation, served from a host whose
   root is `host` followed by `/`, resolves to a link to the image.
   */
  lemma {:induction false} AdvertisedLinkResolves(
    image: Image, requester: User, links: seq<ExpiringLink>, host: string, now: int)
    requires LinkedRepresentation(image, requester, links, host + "/").Ok?
    requires LinkKey in LinkedRepresentation(image, requester, links, host + "/").value
    ensures ResolvesTo(LinkedRepresentation(image, requester, links, host + "/").value[LinkKey], host, links, image.url, now)
  {
    var pk :| IsOnlyLinkTo(links, image.url, pk);
    AdvertisedIsHostPath(image, requester, links, host, pk);
    HostPathResolves(LinkedRepresentation(image, requester, links, host + "/").value[LinkKey], host, links, pk, image.url, now);
  }

  /** The host followed by a stored link's path resolves to that link's answers. */
  lemma HostPathResolves(advertised: string, host: string, links: seq<ExpiringLink>, pk: int, url: string, now: int)
    requires pk >= 1 && advertised == host + LinkPath(pk)
    requires LinkHasUrl(links, url, pk)
    ensures ResolvesTo(advertised, host, links, url, now)
  {
    HostPathSplit(host, LinkPath(pk));
    assert LinkPkOfPath(advertised[|host|..]) == Some(pk);
    LinkAnswers(links, pk, url, now);
  }

  /** With the root `host + "/"`, the advertised link is the host followed by the link's path. */
  lemma AdvertisedIsHostPath(image: Image, requester: User, links: seq<ExpiringLink>, host: string, pk: int)
    requires LinkedRepresentation(image, requester, links, host + "/").Ok?
    requires IsOnlyLinkTo(links, image.url, pk)
    ensures pk >= 1
    ensures LinkKey in LinkedRepresentation(image, requester, links, host + "/").value
    ensures LinkedRepresentation(image, requester, links, host + "/").value[LinkKey] == host + LinkPath(pk)
  {
    assert DropLast(host + "/") == host;
  }

  /** A host followed by a path splits back into the two at the host's length. */
  lemma HostPathSplit(host: string, path: string)
    ensures (host + path)[..|host|] == host && (host + path)[|host|..] == path
  {
  }

  /** A stored link to `url` answers with `url` until it expires and with the expiry message afterwards. */
  lemma LinkAnswers(links: seq<ExpiringLink>, pk: int, url: string, now: int)
    requires LinkHasUrl(links, url, pk)
    ensures !IsExpired(links[pk - 1], now) ==> RetrieveLink(links, pk, now) == LinkFound(StatusOk, map[UrlKey := url])
    ensures IsExpired(links[pk - 1], now) ==> RetrieveLink(links, pk, now) == LinkFound(StatusOk, ExpiredBody())
  {
  }
}
